=== FILE: README.md ===
# pjcounter page counting, modelled in Dafny

pjcounter counts the sheets a print job will use. It takes a file name, `-`
for standard input, or a file-like object. A file-like object is first
spooled to a temporary file. Standard input goes through the same spooling
loop, but it is a text stream: its first read either fails to decode, or
returns text that cannot be written into the binary temporary file, unless
standard input is empty. The job then samples the first and last blocks and
tries the format parsers in a fixed order: PostScript, PCL-XL, PDF, PCL 3/4/5.
The first parser that accepts the sample counts `(pages, copies)` over the
whole job, and the job size is `pages * copies`.

This project models two parts of it:

- the orchestration in `pjcounter/analyzer.py`: the empty-input check, the
  head/tail sampler, the first-match-wins detection loop, the cached parser,
  the wrapping of parser errors, the spooling loop and the job record
  (module `Analyzer`, file `analyzer.dfy`);
- the PDF parser in `pjcounter/pdf.py`: the validity test on the first block
  and the page counter (module `PdfParser`, file `pdf_parser.dfy`).

The page counter is Python's `re.findall` with the pattern `/Type`, any
whitespace run, `/Page`, then one of `/`, `>` or whitespace. It is written
as an explicit left-to-right scanner (`PdfParser.ScanFrom`). That scanner is
proved equal to a declarative description of `findall` (`FindAllFrom`): the
leftmost match, then the search resumes where that match ended. The
declarative list is unique, so the page count is well defined.

`common.dfy` (module `Common`) holds the shared vocabulary: `Option`,
`Result`, bytes, the `(pages, copies)` pair, and Python's `bytes.find` and
`bytes.upper`.

What the model cannot see is a parameter, gathered in
`Analyzer.Environment`:
- the validity tests and page counters of the PostScript, PCL-XL and
  PCL 3/4/5 parsers;
- non-format exceptions raised while a parser is constructed;
- UTF-8 decoding with replacement;
- the content of named files and the raw bytes of standard input;
- the locale decoding of the first read from standard input, which gives
  text or a `UnicodeDecodeError` message;
- the temporary file's name;
- `FIRSTBLOCKSIZE`, `LASTBLOCKSIZE` and `MEGABYTE`, as positive numbers.

The base class `pdlparser.PDLParser` is not part of this model. Its
constructor is taken to raise "not this format" (`PDLParserError`) exactly
when the parser's `isValid` is false. It may also raise some other exception
first; `constructionFault` stands for that.

Python's `\s` on `str` is written out as the characters for which
`str.isspace()` holds: 9-13, 28-32, U+0085, U+00A0, U+1680, U+2000-U+200A,
U+2028, U+2029, U+202F, U+205F and U+3000. NUL is not among them. The unused
`PDFWHITESPACE` constant does list NUL, but the regular expression does not
use that constant.

Four behaviours of the code are easy to misread, and the model keeps them
as written:
- A PDF with no page marker makes `getJobSize` return `(None, None)`. It
  raises no parser error. `job.__init__` then multiplies `None * None`, which
  raises Python's `TypeError` (`Error.NoneOperand`). The job does not fail
  with an "Unsupported file format" error.
- A file-like object that can already read and seek is still spooled to a
  temporary file. It is not used directly.
- Detection errors ("input file ... is empty !", "Analysis of first data
  block failed.") are raised inside the `try` of `_getJobSize`. They are
  therefore re-raised as "Unsupported file format for ... (...)", like
  counting errors.
- Standard input is `sys.stdin`, a text stream in Python 3. Its first
  `read(MEGABYTE)` decodes the waiting bytes with the locale's codec, and
  undecodable bytes raise `UnicodeDecodeError` there with the default strict
  error handler. Decoded text is written to a temporary file opened `"w+b"`,
  where the first non-empty chunk raises `TypeError` ("a bytes-like object is required, not 'str'").
  Both happen in `_openFile`, outside the `try`, so neither error is
  wrapped. Empty standard input gives an empty temporary file and the
  wrapped empty-input error. No job read from standard input is counted.

## Model

| member | source | states |
|---|---|---|
| `Common.Upper` | pjcounter/pdf.py:45 | `bytes.upper()` keeps the length and changes exactly the bytes `a`-`z`, each to its capital |
| `Common.Find` | pjcounter/pdf.py:45-46 | `bytes.find` gives -1 exactly when the needle does not occur, and otherwise the lowest index where it occurs |
| `PdfParser.IsValidExactly` | pjcounter/pdf.py:41-49 | the first block is PDF exactly when `%PDF-` occurs anywhere in it, or `ESC%-12345X` lies within its first 128 bytes and the upper-cased block contains `LANGUAGE=PDF`; the two `startswith` tests are subsumed |
| `PdfParser.HeaderIsValid` | pjcounter/pdf.py:43-44 | a block starting with `%PDF-`, or with `ESC%-12345X%PDF-`, is valid whatever follows, and contains the header |
| `PdfParser.MatchRunIsMaximal` | pjcounter/pdf.py:62 | a match of the pattern uses the whole whitespace run after `/Type`, so the greedy `\s*` has only one way to match |
| `PdfParser.MatchEnd` | pjcounter/pdf.py:62 | an attempted match at `i` that succeeds ends at least 11 characters after `i` and within the text |
| `PdfParser.MatchEndSound` | pjcounter/pdf.py:62 | when the matcher reports an end, the pattern matches exactly that span |
| `PdfParser.MatchEndComplete` | pjcounter/pdf.py:62 | when the pattern matches at `i` with `k` whitespace characters, the matcher finds it and reports the end `i + 11 + k` |
| `PdfParser.MatchEndUnique` | pjcounter/pdf.py:62 | two matches starting at the same position are the same span |
| `PdfParser.ScanFromFindsAll` | pjcounter/pdf.py:62-64 | scanning from `pos`, with no match starting in `[from, pos)`, yields the leftmost non-overlapping match list searched from `from` |
| `PdfParser.ScanFindsAll` | pjcounter/pdf.py:62-64 | the scanner reports exactly the list `re.findall` describes: each match is the leftmost one at or after the end of the previous one, and none follows the last |
| `PdfParser.FindAllUnique` | pjcounter/pdf.py:64 | any two lists that fit the findall description are equal, so the number of matches is determined by the text |
| `PdfParser.FindAllBound` | pjcounter/pdf.py:62-64 | matches do not overlap and each is at least 11 characters long, so `from + 11 * count` is at most the end of the last match, which is at most `|text|` |
| `PdfParser.JobSize` | pjcounter/pdf.py:51-69 | pages and copies are both present or both absent; copies is 1; pages is at least 1 and at most `|text| / 11`; pages is present exactly when the pattern matches somewhere |
| `PdfParser.PageCountIsFindAll` | pjcounter/pdf.py:62-69 | for the findall list of the text, the result is `(None, None)` when the list is empty and `(length, 1)` otherwise |
| `PdfParser.PageTreeNodeNotCounted` | pjcounter/pdf.py:62 | `/Type`, whitespace, `/Pages` (a page-tree node) never starts a match |
| `PdfParser.OverlappingMarkersCountOnce` | pjcounter/pdf.py:62-64 | in `/Type/Page/Type/Page>` the first match consumes the `/` of the second `/Type`, so one page is counted |
| `Analyzer.Construct` | pjcounter/analyzer.py:62-67 | with no other exception, a parser is accepted exactly when its validity test holds and says "not this format" exactly when the test fails; any other exception comes back as that failure |
| `Analyzer.ReadFirstAndLastBlocks` | pjcounter/analyzer.py:110-120 | the first block is the prefix of length min(`FIRSTBLOCKSIZE`, size); the last block is empty exactly when the content is shorter than `LASTBLOCKSIZE`, and otherwise is the content's suffix of that length |
| `Analyzer.TryInOrder` | pjcounter/analyzer.py:57-70 | the parsers tried are a prefix of the order and all but the last said "not this format"; a selected parser is the last one tried and accepted; a non-format failure comes from the last one tried; any other failure is "Analysis of first data block failed." after every parser was tried and rejected the sample |
| `Analyzer.FirstAcceptingIsSelected` | pjcounter/analyzer.py:57-65 | if parser `i` accepts and all earlier ones reject, parser `i` is selected and no later parser is tried |
| `Analyzer.FaultStopsDetection` | pjcounter/analyzer.py:62-67 | if parser `i` raises something other than "not this format" after earlier rejections, detection stops with that error and no later parser is tried |
| `Analyzer.AllRejectedIsUndetected` | pjcounter/analyzer.py:69-70 | if every parser rejects, detection fails with "Analysis of first data block failed." after trying them all |
| `Analyzer.Detect` | pjcounter/analyzer.py:45-70 | no parser is tried exactly when the input is empty; an empty input fails with "input file ... is empty !"; otherwise the parsers tried are a prefix of the priority order, all but the last rejected the sampled blocks, a selected parser is the last one tried and accepted them, a non-format failure is the last one's, and any other failure is "Analysis of first data block failed." after all four |
| `Analyzer.DetectSelectsFirstAccepting` | pjcounter/analyzer.py:56-65 | on a non-empty input, the first parser in priority order that accepts the sampled blocks after earlier rejections is selected, and no later parser is tried |
| `Analyzer.PdlHandler` | pjcounter/analyzer.py:72-76 | a successful handler lookup caches the parser it returns; a failed one leaves the state unchanged; the file name never changes; with a parser cached, the lookup returns it and constructs nothing |
| `Analyzer.HandlerIdempotent` | pjcounter/analyzer.py:51-52 | after a successful lookup, asking for the handler again returns the same parser, leaves the state unchanged and constructs no parser |
| `Analyzer.Rewrap` | pjcounter/analyzer.py:128-132 | a parser error is re-raised as "Unsupported file format for <name> (<message>)"; any other error passes unchanged |
| `Analyzer.CountJob` | pjcounter/analyzer.py:130 | the chosen parser counts: PDF always returns, with pages present exactly when the page-marker count is positive, copies present exactly when pages is, and then exactly that count and one copy (pdf.py:66-69); the other parsers return their own count or error |
| `Analyzer.GetJobSize` | pjcounter/analyzer.py:123-136 | a count is returned exactly when the handler lookup succeeds and the chosen parser counts, and it is that parser's pair; a detection or counting error comes back through the rewrapping with its own message, so a counting error never comes back as a number |
| `Analyzer.FirstEmpty` | pjcounter/analyzer.py:98-101 | the drain loop stops at the first empty read: every earlier read is non-empty |
| `Analyzer.FirstEmptyIsUnique` | pjcounter/analyzer.py:98-101 | the loop's stopping point is determined: any count with every earlier read non-empty and the read at it empty (or past the end) is the first empty read |
| `Analyzer.Drain` | pjcounter/analyzer.py:98-104 | the loop consumes the reads up to the first empty one, and the spool is their concatenation, the same content `_openFile` gives the job (`Spooled`) |
| `Analyzer.ChunksOf` | pjcounter/analyzer.py:99 | each `read(MEGABYTE)` before the end returns between 1 and `MEGABYTE` bytes |
| `Analyzer.SpoolingIsTransparent` | pjcounter/analyzer.py:93-104 | a stream that delivers the content in `MEGABYTE` chunks and then ends is spooled to exactly that content |
| `Analyzer.OpenFile` | pjcounter/analyzer.py:79-104 | a plain file name is read as is under its own name; a file-like object is spooled and the job takes the temporary file's name; standard input opens only when its first read is empty; undecodable bytes fail with the unwrapped decoding error, and decoded text fails with the unwrapped bytes-required error |
| `Analyzer.RunJob` | pjcounter/analyzer.py:139-143 | an opening error or a `_getJobSize` error is the job's error unchanged; a complete count always gives a job with those pages and copies and `job_size = pages * copies`; the job fails with the `None` multiplication error exactly when counting returned a missing pages or copies |
| `Analyzer.EmptyFileFailsFirst` | pjcounter/analyzer.py:54-55 | an empty file fails before any parser is constructed, with "Unsupported file format for <name> (input file <name> is empty !)" |
| `Analyzer.UndetectedFileFails` | pjcounter/analyzer.py:69-70 | a non-empty file that every parser rejects fails with the wrapped "Analysis of first data block failed." after all four were tried |
| `Analyzer.PdfFileCounted` | pjcounter/analyzer.py:123-143 | a non-empty file whose sample fails the PostScript and PCL-XL validity tests and passes the PDF one, with no other exception, gives `(n, 1, n)` for `n` page markers in its decoded text, and the `None` multiplication error when `n` is 0 |
| `Analyzer.CountIgnoresName` | pjcounter/analyzer.py:123-136 | the file name enters counting only through error messages: a count that succeeds under one name gives the same result under any other |
| `Analyzer.StdinTextFails` | pjcounter/analyzer.py:84-102 | standard input whose first read decodes to some text fails with the unwrapped bytes-required error before any parser is tried |
| `Analyzer.UndecodableStdinFails` | pjcounter/analyzer.py:84-99 | standard input whose first read fails to decode fails with that unwrapped decoding error before any parser is tried |
| `Analyzer.StdinNeverCounts` | pjcounter/analyzer.py:84-102 | a job read from standard input always fails |
| `Analyzer.EmptyStdinFails` | pjcounter/analyzer.py:54-55 | empty standard input fails the empty-input check under the temporary file's name, wrapped as "Unsupported file format" |
| `Analyzer.StreamCountsLikeFile` | pjcounter/analyzer.py:79-104 | a file-like object that delivers a file's content gives the same job as the file, except that the job takes the temporary file's name |

## Left out

- File opening, `os.stat`, `open` failures, closing in `finally` and the
  `PYKOTADIRECTORY` lookup for the temporary directory are operating-system
  I/O. The model works on each file's content and the temporary file's name,
  both given as parameters.
- UTF-8 decoding with replacement is a parameter (`Environment.decode`). The
  page counter is modelled over the decoded characters.
- The PostScript, PCL-XL, PCL 3/4/5 parsers and the `pdlparser` base class
  are not part of this model. Their validity tests, their counts and the
  constructor's non-format exceptions are parameters.
- `Analyzer.CountJob`: every parser's `getJobSize` is taken to read the whole
  content from its start. The base class opens `self.infile` (with the
  parser's `openmode`) and positions it; that code is not part of this model.
- `Analyzer.Environment`: `constructionFault` and `countOther` depend on the
  parser and its input only, although `module.Parser` also receives the
  analyzer and the file name (analyzer.py:63). Those parsers are taken
  not to let the name change their verdict or count, which
  `Analyzer.CountIgnoresName` and `Analyzer.StreamCountsLikeFile` rely on.
- `Analyzer.ReadFirstAndLastBlocks`: when the seek fails, the code sets the
  last block to the empty `str` `""` rather than `b""`. The model gives the
  empty byte sequence, so a parser that would react to the type is
  not distinguished.
- `Analyzer.PdlHandler`: detection samples the content from its start. That
  is true of the single lookup `_getJobSize` makes right after opening. A
  second lookup after a failed detection would read the first block from
  wherever the first one left the file (or from a closed file), so the
  model does not promise anything about repeating a failed lookup.
- `totiffcommands`, `required`, `format` and the unused
  `PDFWHITESPACE`, `PDFDELIMITERS` and `PDFMEDIASIZE` constants play no part
  in counting.
- `Analyzer.Input`: a file-like object is taken to be binary. A text-mode
  object would fail in the spooling loop exactly as standard input does.
- `Analyzer.Drain`: a stream is a finite list of read results, with end of
  stream after the list. A stream that never ends, which would make the loop
  run forever, is not modelled.
- Python's arbitrary-precision integers need no wrap-around. The pages and
  copies reported by the PostScript, PCL-XL and PCL 3/4/5 parsers, which this
  model does not cover, are not constrained.
- The directory-walking example driver and the packaging script contain no
  counting logic.

=== FILE: analyzer.dfy ===
/** Format autodetection and job-size orchestration of pjcounter/analyzer.py.

    A job is opened (a named file is read as is; a file-like object is first
    spooled to a temporary file, and so is standard input, which fails as
    soon as its first read decodes to any text or fails to decode), a first
    and a last block are sampled, the format parsers are tried in a fixed
    order until one accepts the sample, and that parser counts
    `(pages, copies)` over the whole content. The job size is
    `pages * copies`.

    What the model cannot see is a parameter: the three parsers whose code is
    not part of this model, the file system, the temporary file's name, the
    UTF-8 decoding, the locale decoding of standard input, and the block
    sizes. */
module Analyzer {
  import opened Common
  import PdfParser

  // ---------------------------------------------------------------------
  // Parsers and what the model takes as given
  // ---------------------------------------------------------------------

  /** The parser modules, one per page description language. */
  datatype Format = PostScript | PclXl | Pdf | Pcl345

  /** The order in which detection tries the parsers; the first that
      accepts wins. */
  const Priority: seq<Format> := [PostScript, PclXl, Pdf, Pcl345]

  type Positive = n: int | n > 0 witness 1

  /** `FIRSTBLOCKSIZE`, `LASTBLOCKSIZE` and `MEGABYTE`. */
  datatype Limits = Limits(firstBlockSize: Positive, lastBlockSize: Positive, megabyte: Positive)

  /** The first and last blocks every parser is constructed with. */
  datatype Sample = Sample(first: seq<byte>, last: seq<byte>)

  /** The errors a job can end with: a `PDLParserError` and its message,
      any other exception raised by code outside this model (its cause kept
      as text), and the `TypeError` Python raises when `job_size` multiplies
      a `None`. */
  datatype Error = ParserError(message: string) | Fault(cause: string) | NoneOperand

  /** The errors a parser's `getJobSize` can raise. */
  type CountError = e: Error | !e.NoneOperand? witness Fault("")

  /** Everything the analyzer depends on that is not part of this model. */
  datatype Environment = Environment(
    limits: Limits,
    /** Validity tests of the parsers whose code is not part of this model. */
    postScriptValid: Sample -> bool,
    pclXlValid: Sample -> bool,
    pcl345Valid: Sample -> bool,
    /** An exception other than `PDLParserError` raised while constructing
        the given parser on the given sample, if any. */
    constructionFault: (Format, Sample) -> Option<string>,
    /** `getJobSize` of the parsers whose code is not part of this model. */
    countOther: (Format, seq<byte>) -> Result<JobCount, CountError>,
    /** UTF-8 decoding with replacement of invalid sequences. */
    decode: seq<byte> -> string,
    /** The content of each named file. */
    files: string -> seq<byte>,
    /** The raw bytes waiting on standard input. */
    stdin: seq<byte>,
    /** The first `sys.stdin.read(MEGABYTE)` on non-empty raw bytes:
        standard input is a text stream, so the bytes are decoded with the
        locale's codec, giving text or the message of the
        `UnicodeDecodeError` the strict codec raises. */
    stdinDecode: seq<byte> -> Result<string, string>,
    /** The name the temporary spool file receives. */
    tempName: string)

  /** What constructing a parser on a sample does. */
  datatype Construction =
    | Accepted               // the parser object is built
    | Rejected               // `PDLParserError`: not this format
    | Failed(cause: string)  // any other exception

  /** The validity test of parser `f`. */
  function Valid(env: Environment, f: Format, s: Sample): bool
  {
    match f
    case PostScript => env.postScriptValid(s)
    case PclXl => env.pclXlValid(s)
    case Pdf => PdfParser.IsValid(s.first)
    case Pcl345 => env.pcl345Valid(s)
  }

  /** `module.Parser(self, filename, (firstblock, lastblock))`: the parser
      rejects the sample exactly when its validity test fails, unless some
      other exception is raised first. */
  function Construct(env: Environment, f: Format, s: Sample): (c: Construction)
    ensures c == Accepted <==> env.constructionFault(f, s).None? && Valid(env, f, s)
    ensures env.constructionFault(f, s).Some? ==> c == Failed(env.constructionFault(f, s).value)
    ensures c == Rejected <==> env.constructionFault(f, s).None? && !Valid(env, f, s)
  {
    match env.constructionFault(f, s)
    case Some(cause) => Failed(cause)
    case None => if Valid(env, f, s) then Accepted else Rejected
  }

  // ---------------------------------------------------------------------
  // Sampling
  // ---------------------------------------------------------------------

  /** `_readFirstAndLastBlocks`: the first `FIRSTBLOCKSIZE` bytes (fewer when
      the content is shorter) and the last `LASTBLOCKSIZE` bytes; when the
      content is shorter than that, the seek fails and the last block is
      empty. (The code sets it to the empty `str` `""`, not `b""`; both are
      the empty sequence here.) */
  function ReadFirstAndLastBlocks(limits: Limits, content: seq<byte>): (s: Sample)
    ensures s.first <= content
    ensures |s.first| == Min(limits.firstBlockSize, |content|)
    ensures s.last == [] <==> |content| < limits.lastBlockSize
    ensures s.last != [] ==>
              |s.last| == limits.lastBlockSize && s.last == content[|content| - |s.last|..]
  {
    var first := content[..Min(limits.firstBlockSize, |content|)];
    if |content| >= limits.lastBlockSize then
      Sample(first, content[|content| - limits.lastBlockSize..])
    else
      Sample(first, [])
  }

  // ---------------------------------------------------------------------
  // Detection
  // ---------------------------------------------------------------------

  const UndetectedMessage: string := "Analysis of first data block failed."

  function EmptyMessage(name: string): string
  {
    "input file " + name + " is empty !"
  }

  /** The outcome of a detection and the parsers it constructed, in order. */
  datatype Detection = Detection(outcome: Result<Format, Error>, tried: seq<Format>)

  /** The detection loop over `order`: construct each parser in turn; on
      "not this format" go on, on acceptance stop with that parser, on any
      other failure stop with that failure. */
  function TryInOrder(env: Environment, order: seq<Format>, s: Sample): (d: Detection)
    ensures d.tried <= order
    ensures |order| > 0 ==> |d.tried| > 0
    ensures forall j | 0 <= j < |d.tried| - 1 :: Construct(env, d.tried[j], s) == Rejected
    ensures d.outcome.Ok? ==>
              |d.tried| > 0 && d.outcome.value == d.tried[|d.tried| - 1]
              && Construct(env, d.outcome.value, s) == Accepted
    ensures d.outcome.Err? && d.outcome.error.Fault? ==>
              |d.tried| > 0 && Construct(env, d.tried[|d.tried| - 1], s) == Failed(d.outcome.error.cause)
    ensures d.outcome.Err? && !d.outcome.error.Fault? ==>
              d.outcome.error == ParserError(UndetectedMessage) && d.tried == order
              && forall j | 0 <= j < |order| :: Construct(env, order[j], s) == Rejected
  {
    if order == [] then Detection(Err(ParserError(UndetectedMessage)), [])
    else
      match Construct(env, order[0], s)
      case Accepted => Detection(Ok(order[0]), [order[0]])
      case Failed(cause) => Detection(Err(Fault(cause)), [order[0]])
      case Rejected =>
        var rest := TryInOrder(env, order[1..], s);
        assert order == [order[0]] + order[1..];
        Detection(rest.outcome, [order[0]] + rest.tried)
  }

  /** Parser `order[i]` accepts and every earlier one says "not this
      format": detection selects `order[i]` having tried exactly
      `order[..i + 1]`. */
  lemma FirstAcceptingIsSelected(env: Environment, order: seq<Format>, s: Sample, i: nat)
    requires i < |order|
    requires Construct(env, order[i], s) == Accepted
    requires forall j | 0 <= j < i :: Construct(env, order[j], s) == Rejected
    ensures TryInOrder(env, order, s) == Detection(Ok(order[i]), order[..i + 1])
  {
  }

  /** Parser `order[i]` fails with an error other than "not this format"
      and every earlier one says "not this format": detection stops with
      that error and the later parsers are never constructed. */
  lemma FaultStopsDetection(env: Environment, order: seq<Format>, s: Sample, i: nat, cause: string)
    requires i < |order|
    requires Construct(env, order[i], s) == Failed(cause)
    requires forall j | 0 <= j < i :: Construct(env, order[j], s) == Rejected
    ensures TryInOrder(env, order, s) == Detection(Err(Fault(cause)), order[..i + 1])
  {
  }

  /** Every parser says "not this format": detection fails with
      "Analysis of first data block failed." after trying them all. */
  lemma AllRejectedIsUndetected(env: Environment, order: seq<Format>, s: Sample)
    requires forall j | 0 <= j < |order| :: Construct(env, order[j], s) == Rejected
    ensures TryInOrder(env, order, s) == Detection(Err(ParserError(UndetectedMessage)), order)
  {
  }

  /** `_detectPDLHandler` without its early return: an empty file fails
      before any block is read or any parser is tried; otherwise the
      parsers are tried in priority order on the sampled blocks. */
  function Detect(env: Environment, name: string, content: seq<byte>): (d: Detection)
    ensures d.tried == [] <==> |content| == 0
    ensures |content| == 0 ==> d.outcome == Err(ParserError(EmptyMessage(name)))
    ensures d.tried <= Priority
    ensures |content| > 0 ==>
              var s := ReadFirstAndLastBlocks(env.limits, content);
              (forall j | 0 <= j < |d.tried| - 1 :: Construct(env, d.tried[j], s) == Rejected)
              && (d.outcome.Ok? ==>
                    d.outcome.value == d.tried[|d.tried| - 1]
                    && Construct(env, d.outcome.value, s) == Accepted)
              && (d.outcome.Err? && d.outcome.error.Fault? ==>
                    Construct(env, d.tried[|d.tried| - 1], s) == Failed(d.outcome.error.cause))
              && (d.outcome.Err? && !d.outcome.error.Fault? ==>
                    d.outcome.error == ParserError(UndetectedMessage) && d.tried == Priority)
  {
    if |content| == 0 then Detection(Err(ParserError(EmptyMessage(name))), [])
    else TryInOrder(env, Priority, ReadFirstAndLastBlocks(env.limits, content))
  }

  /** On a non-empty input, when parser `Priority[i]` accepts the sampled
      blocks and every earlier one says "not this format", detection selects
      it having tried exactly `Priority[..i + 1]`. */
  lemma DetectSelectsFirstAccepting(env: Environment, name: string, content: seq<byte>, i: nat)
    requires |content| > 0 && i < |Priority|
    requires var s := ReadFirstAndLastBlocks(env.limits, content);
             Construct(env, Priority[i], s) == Accepted
             && forall j | 0 <= j < i :: Construct(env, Priority[j], s) == Rejected
    ensures Detect(env, name, content) == Detection(Ok(Priority[i]), Priority[..i + 1])
  {
    FirstAcceptingIsSelected(env, Priority, ReadFirstAndLastBlocks(env.limits, content), i);
  }

  // ---------------------------------------------------------------------
  // The cached parser
  // ---------------------------------------------------------------------

  /** The analyzer's state: the current file name and the parser chosen so
      far, if any. */
  datatype Analysis = Analysis(filename: string, parser: Option<Format>)

  datatype Handled = Handled(state: Analysis, outcome: Result<Format, Error>, tried: seq<Format>)

  /** The `_pdlhandler` property: the cached parser, detecting and caching
      one first when there is none yet. Detection samples the content from
      its start, as the single lookup `_getJobSize` makes right after
      opening the file does. */
  function PdlHandler(env: Environment, a: Analysis, content: seq<byte>): (h: Handled)
    ensures h.state.filename == a.filename
    ensures h.outcome.Ok? ==> h.state.parser == Some(h.outcome.value)
    ensures h.outcome.Err? ==> h.state == a
    ensures a.parser.None? ==> h.outcome == Detect(env, a.filename, content).outcome
    ensures a.parser.Some? ==> h == Handled(a, Ok(a.parser.value), [])
  {
    match a.parser
    case Some(f) => Handled(a, Ok(f), [])
    case None =>
      var d := Detect(env, a.filename, content);
      match d.outcome
      case Ok(f) => Handled(a.(parser := Some(f)), Ok(f), d.tried)
      case Err(e) => Handled(a, Err(e), d.tried)
  }

  /** Asking for the handler again after a successful lookup never
      re-detects: the cached parser comes back, the state is unchanged and
      no parser is constructed. */
  lemma HandlerIdempotent(env: Environment, a: Analysis, content: seq<byte>)
    ensures var h := PdlHandler(env, a, content);
            h.outcome.Ok? ==> PdlHandler(env, h.state, content) == Handled(h.state, h.outcome, [])
  {
  }

  // ---------------------------------------------------------------------
  // Counting
  // ---------------------------------------------------------------------

  /** The chosen parser's `getJobSize` over the whole content. */
  function CountJob(env: Environment, f: Format, content: seq<byte>): (r: Result<JobCount, Error>)
    ensures f == Pdf ==>
              r.Ok? && (r.value.pages.Some? <==> r.value.copies.Some?)
              && (r.value.pages.Some? ==>
                    r.value == JobCount(Some(PdfParser.PageCount(env.decode(content))), Some(1)))
    ensures f == Pdf ==> (r.value.pages.Some? <==> PdfParser.PageCount(env.decode(content)) > 0)
    ensures f != Pdf ==> r == env.countOther(f, content)
  {
    match f
    case Pdf => Ok(PdfParser.JobSize(env.decode(content)))
    case _ => env.countOther(f, content)
  }

  function UnsupportedMessage(name: string, cause: string): string
  {
    "Unsupported file format for " + name + " (" + cause + ")"
  }

  /** `PDLParserError` raised inside `_getJobSize`'s `try` is re-raised with
      the file name and the original message; other errors pass unchanged. */
  function Rewrap(name: string, e: Error): (r: Error)
    ensures e.ParserError? <==> r.ParserError?
    ensures e.ParserError? ==> r.message == UnsupportedMessage(name, e.message)
    ensures !e.ParserError? ==> r == e
  {
    match e
    case ParserError(m) => ParserError(UnsupportedMessage(name, m))
    case _ => e
  }

  /** `_getJobSize` after the file is open: get the handler, then count. */
  function GetJobSize(env: Environment, a: Analysis, content: seq<byte>): (r: Result<JobCount, Error>)
    ensures var h := PdlHandler(env, a, content);
            r.Ok? <==> h.outcome.Ok? && CountJob(env, h.outcome.value, content).Ok?
    ensures var h := PdlHandler(env, a, content);
            h.outcome.Err? ==> r == Err(Rewrap(a.filename, h.outcome.error))
    ensures var h := PdlHandler(env, a, content);
            h.outcome.Ok? ==>
              var c := CountJob(env, h.outcome.value, content);
              (c.Ok? ==> r == Ok(c.value)) && (c.Err? ==> r == Err(Rewrap(a.filename, c.error)))
    ensures r.Err? && r.error.ParserError? ==>
              exists m :: r.error.message == UnsupportedMessage(a.filename, m)
  {
    var h := PdlHandler(env, a, content);
    match h.outcome
    case Err(e) => Err(Rewrap(a.filename, e))
    case Ok(f) =>
      match CountJob(env, f, content)
      case Err(e) => Err(Rewrap(a.filename, e))
      case Ok(c) => Ok(c)
  }

  // ---------------------------------------------------------------------
  // Opening: spooling of streams
  // ---------------------------------------------------------------------

  /** What `job` is given: a file name (`"-"` meaning standard input) or a
      binary file-like object, seen as the successive results of its reads. */
  datatype Input = FileName(name: string) | FileObject(results: seq<seq<byte>>)

  /** The index of the first empty read: where the drain loop stops. */
  function FirstEmpty(results: seq<seq<byte>>): (n: nat)
    ensures n <= |results|
    ensures forall j | 0 <= j < n :: results[j] != []
    ensures n < |results| ==> results[n] == []
  {
    if results == [] || results[0] == [] then 0 else 1 + FirstEmpty(results[1..])
  }

  /** The first empty read is the only index with every earlier read
      non-empty and itself empty or past the end: what `Drain` stops at is
      `FirstEmpty`. */
  lemma FirstEmptyIsUnique(results: seq<seq<byte>>, n: nat)
    requires n <= |results|
    requires forall j | 0 <= j < n :: results[j] != []
    requires n < |results| ==> results[n] == []
    ensures n == FirstEmpty(results)
  {
  }

  /** The concatenation of a list of chunks. */
  function Flatten(chunks: seq<seq<byte>>): seq<byte>
  {
    if chunks == [] then [] else chunks[0] + Flatten(chunks[1..])
  }

  /** What the drain loop writes to the temporary file: every read up to
      the first empty one. Reads past the end of the list come back empty. */
  function Spooled(results: seq<seq<byte>>): seq<byte>
  {
    Flatten(results[..FirstEmpty(results)])
  }

  /** The drain loop of `_openFile`: read until a read comes back empty,
      appending every chunk to the spool. */
  method Drain(results: seq<seq<byte>>) returns (written: seq<byte>, count: nat)
    ensures count <= |results|
    ensures forall j | 0 <= j < count :: results[j] != []
    ensures count < |results| ==> results[count] == []
    ensures written == Flatten(results[..count])
    ensures written == Spooled(results)
  {
    written := [];
    count := 0;
    while count < |results| && results[count] != []
      invariant count <= |results|
      invariant forall j | 0 <= j < count :: results[j] != []
      invariant written == Flatten(results[..count])
    {
      FlattenSnoc(results[..count], results[count]);
      assert results[..count + 1] == results[..count] + [results[count]];
      written := written + results[count];
      count := count + 1;
    }
  }

  lemma {:induction false} FlattenSnoc(chunks: seq<seq<byte>>, c: seq<byte>)
    ensures Flatten(chunks + [c]) == Flatten(chunks) + c
    decreases |chunks|
  {
    if chunks == [] {
      assert [] + [c] == [c];
    } else {
      assert (chunks + [c])[1..] == chunks[1..] + [c];
      FlattenSnoc(chunks[1..], c);
    }
  }

  /** `content` cut into consecutive chunks of `size` bytes, the last one
      possibly shorter: what `read(size)` returns until the end. */
  function ChunksOf(content: seq<byte>, size: Positive): (chunks: seq<seq<byte>>)
    ensures forall j | 0 <= j < |chunks| :: 0 < |chunks[j]| <= size
    decreases |content|
  {
    if |content| <= size then (if content == [] then [] else [content])
    else [content[..size]] + ChunksOf(content[size..], size)
  }

  /** Spooling is transparent: a stream that delivers the content in
      chunks and then signals its end is spooled to exactly that content,
      whatever the reader would see after the end. */
  lemma {:induction false} SpoolingIsTransparent(content: seq<byte>, size: Positive, after: seq<seq<byte>>)
    ensures Spooled(ChunksOf(content, size) + [[]] + after) == content
    decreases |content|
  {
    var results := ChunksOf(content, size) + [[]] + after;
    if |content| <= size {
      if content == [] {
        assert results[0] == [];
      } else {
        assert results[0] == content && results[1..][0] == [];
        assert FirstEmpty(results) == 1;
        assert results[..1] == [content];
        assert Flatten([content]) == content + Flatten([]);
      }
    } else {
      var tail := ChunksOf(content[size..], size) + [[]] + after;
      SpoolingIsTransparent(content[size..], size, after);
      assert results == [content[..size]] + tail;
      assert results[1..] == tail;
      assert results[..FirstEmpty(results)] == [content[..size]] + tail[..FirstEmpty(tail)];
      assert content == content[..size] + content[size..];
    }
  }

  /** What Python says when `str` is written to a file opened `"w+b"`. */
  const BytesRequired: string := "a bytes-like object is required, not 'str'"

  /** The first `sys.stdin.read(MEGABYTE)`: empty text at the end of the
      stream, otherwise the decoding of the waiting bytes. */
  function FirstStdinRead(env: Environment): (r: Result<string, string>)
    ensures env.stdin == [] ==> r == Ok("")
    ensures env.stdin != [] ==> r == env.stdinDecode(env.stdin)
  {
    if env.stdin == [] then Ok("") else env.stdinDecode(env.stdin)
  }

  /** Standard input ends at its first read. */
  predicate StdinIsEmpty(env: Environment)
  {
    FirstStdinRead(env) == Ok("")
  }

  /** `_openFile`: the name the job goes by from then on, and the content
      of the file that is read. A file-like object is spooled to the
      temporary file, whose name replaces the job's name. Standard input is
      drained the same way, but its reads are text: undecodable bytes fail the
      first read, and decoded text fails to be written to the binary
      temporary file. Either error is raised outside `_getJobSize`'s `try`,
      so it is not wrapped. */
  function OpenFile(env: Environment, input: Input): (r: Result<(string, seq<byte>), Error>)
    ensures input.FileName? && input.name != "-" ==> r == Ok((input.name, env.files(input.name)))
    ensures input.FileObject? ==>
              r.Ok? && r.value.0 == env.tempName
              && r.value.1 == Flatten(input.results[..FirstEmpty(input.results)])
    ensures input == FileName("-") ==> (r.Ok? <==> StdinIsEmpty(env))
    ensures input == FileName("-") && r.Ok? ==> r.value == (env.tempName, [])
    ensures input == FileName("-") && FirstStdinRead(env).Err? ==>
              r == Err(Fault(FirstStdinRead(env).error))
    ensures input == FileName("-") && FirstStdinRead(env).Ok? && !StdinIsEmpty(env) ==>
              r == Err(Fault(BytesRequired))
    ensures r.Err? ==> input == FileName("-") && r.error.Fault?
  {
    match input
    case FileObject(results) => Ok((env.tempName, Spooled(results)))
    case FileName(name) =>
      if name != "-" then Ok((name, env.files(name)))
      else
        match FirstStdinRead(env)
        case Err(m) => Err(Fault(m))
        case Ok(text) => if text == "" then Ok((env.tempName, [])) else Err(Fault(BytesRequired))
  }

  // ---------------------------------------------------------------------
  // The job
  // ---------------------------------------------------------------------

  /** A counted job: its attributes `filename`, `pages`, `copies` and
      `job_size`. */
  datatype Job = Job(filename: string, pages: int, copies: int, jobSize: int)

  /** `job(filename)`: open, count with a fresh analyzer, and multiply. A
      parser that reports `None` makes the multiplication fail. */
  function RunJob(env: Environment, input: Input): (r: Result<Job, Error>)
    ensures OpenFile(env, input).Err? ==> r == Err(OpenFile(env, input).error)
    ensures r.Ok? ==> r.value.jobSize == r.value.pages * r.value.copies
    ensures r.Ok? ==>
              OpenFile(env, input).Ok?
              && var (name, content) := OpenFile(env, input).value;
                 r.value.filename == name
                 && GetJobSize(env, Analysis(name, None), content)
                    == Ok(JobCount(Some(r.value.pages), Some(r.value.copies)))
    ensures OpenFile(env, input).Ok? ==>
              var (name, content) := OpenFile(env, input).value;
              var g := GetJobSize(env, Analysis(name, None), content);
              (g.Err? ==> r == Err(g.error))
              && (g.Ok? && g.value.pages.Some? && g.value.copies.Some? ==> r.Ok?)
              && (r == Err(NoneOperand) <==> g.Ok? && (g.value.pages.None? || g.value.copies.None?))
  {
    match OpenFile(env, input)
    case Err(e) => Err(e)
    case Ok((name, content)) =>
      match GetJobSize(env, Analysis(name, None), content)
      case Err(e) => Err(e)
      case Ok(JobCount(Some(p), Some(c))) => Ok(Job(name, p, c, p * c))
      case Ok(_) => Err(NoneOperand)
  }

  /** An empty named file fails before any block is sampled or any parser
      constructed, and the message, raised inside `_getJobSize`'s `try`, is
      wrapped like a counting error. */
  lemma EmptyFileFailsFirst(env: Environment, name: string)
    requires name != "-" && env.files(name) == []
    ensures PdlHandler(env, Analysis(name, None), []).tried == []
    ensures RunJob(env, FileName(name))
            == Err(ParserError(UnsupportedMessage(name, EmptyMessage(name))))
  {
  }

  /** When no parser recognises a non-empty file, the job fails with
      "Analysis of first data block failed.", wrapped with the file name,
      after all four parsers were tried. */
  lemma UndetectedFileFails(env: Environment, name: string)
    requires name != "-" && env.files(name) != []
    requires var s := ReadFirstAndLastBlocks(env.limits, env.files(name));
             forall f :: Construct(env, f, s) == Rejected
    ensures PdlHandler(env, Analysis(name, None), env.files(name)).tried == Priority
    ensures RunJob(env, FileName(name))
            == Err(ParserError(UnsupportedMessage(name, UndetectedMessage)))
  {
  }

  /** A non-empty file that neither the PostScript nor the PCL-XL parser
      takes, and that the PDF parser accepts, is counted as a PDF: one copy
      and as many pages as page markers in its decoded text. With no page
      marker the PDF parser reports `(None, None)` and the job size cannot
      be computed. */
  lemma PdfFileCounted(env: Environment, name: string)
    requires name != "-" && env.files(name) != []
    requires var s := ReadFirstAndLastBlocks(env.limits, env.files(name));
             env.constructionFault(PostScript, s).None? && !env.postScriptValid(s)
             && env.constructionFault(PclXl, s).None? && !env.pclXlValid(s)
             && env.constructionFault(Pdf, s).None? && PdfParser.IsValid(s.first)
    ensures var n := PdfParser.PageCount(env.decode(env.files(name)));
            RunJob(env, FileName(name)) == if n == 0 then Err(NoneOperand) else Ok(Job(name, n, 1, n))
  {
    var s := ReadFirstAndLastBlocks(env.limits, env.files(name));
    FirstAcceptingIsSelected(env, Priority, s, 2);
    var t := env.decode(env.files(name));
    PdfParser.ScanFindsAll(t);
    PdfParser.PageCountIsFindAll(t, PdfParser.ScanFrom(t, 0));
  }

  /** The file name enters the counting only through error messages: when
      counting succeeds under one name it succeeds under any other with the
      same result. */
  lemma CountIgnoresName(env: Environment, n1: string, n2: string, content: seq<byte>)
    ensures GetJobSize(env, Analysis(n1, None), content).Ok?
            <==> GetJobSize(env, Analysis(n2, None), content).Ok?
    ensures GetJobSize(env, Analysis(n1, None), content).Ok? ==>
              GetJobSize(env, Analysis(n1, None), content) == GetJobSize(env, Analysis(n2, None), content)
  {
  }

  /** A file-like object that delivers a file's content in `MEGABYTE`
      chunks gives the same job as the file itself, apart from the name the
      job goes by. */
  lemma StreamCountsLikeFile(env: Environment, name: string, after: seq<seq<byte>>)
    requires name != "-"
    ensures var stream := FileObject(ChunksOf(env.files(name), env.limits.megabyte) + [[]] + after);
            var r := RunJob(env, FileName(name));
            var r' := RunJob(env, stream);
            r.Ok? <==> r'.Ok?
    ensures var stream := FileObject(ChunksOf(env.files(name), env.limits.megabyte) + [[]] + after);
            var r := RunJob(env, FileName(name));
            r.Ok? ==> RunJob(env, stream) == Ok(r.value.(filename := env.tempName))
  {
    SpoolingIsTransparent(env.files(name), env.limits.megabyte, after);
    CountIgnoresName(env, name, env.tempName, env.files(name));
  }

  /** Standard input whose first read decodes to some text fails while it
      is spooled, with the unwrapped error of writing text to a binary file;
      no parser is tried. */
  lemma StdinTextFails(env: Environment)
    requires FirstStdinRead(env).Ok? && !StdinIsEmpty(env)
    ensures RunJob(env, FileName("-")) == Err(Fault(BytesRequired))
  {
  }

  /** Standard input whose bytes the locale's codec rejects fails at its
      first read with the unwrapped decoding error; no parser is tried. */
  lemma UndecodableStdinFails(env: Environment)
    requires FirstStdinRead(env).Err?
    ensures RunJob(env, FileName("-")) == Err(Fault(FirstStdinRead(env).error))
  {
  }

  /** No job read from standard input is ever counted. */
  lemma StdinNeverCounts(env: Environment)
    ensures RunJob(env, FileName("-")).Err?
  {
    if StdinIsEmpty(env) {
      EmptyStdinFails(env);
    }
  }

  /** Empty standard input is spooled to an empty temporary file, which then
      fails the empty-input check under the temporary file's name. */
  lemma EmptyStdinFails(env: Environment)
    requires StdinIsEmpty(env)
    ensures RunJob(env, FileName("-"))
            == Err(ParserError(UnsupportedMessage(env.tempName, EmptyMessage(env.tempName))))
  {
  }
}

=== FILE: common.dfy ===
/** Shared vocabulary of the page counter: optional values, results, bytes,
    and the substring searches that Python's `bytes.find` and `str` regex
    scanning are built on. */
module Common {

  /** An 8-bit value as read from a file opened in binary mode. */
  type byte = x: int | 0 <= x < 256

  datatype Option<+T> = None | Some(value: T)

  datatype Result<+T, +E> = Ok(value: T) | Err(error: E)

  /** What a format parser's `getJobSize` hands back: Python's
      `(pages, copies)` pair, where either part may be `None`. */
  datatype JobCount = JobCount(pages: Option<int>, copies: Option<int>)

  function Min(a: int, b: int): int
  {
    if a <= b then a else b
  }

  predicate IsAscii(s: string)
  {
    forall i | 0 <= i < |s| :: s[i] as int < 128
  }

  /** The bytes of an ASCII literal such as Python's `b"%PDF-"`. */
  function Ascii(s: string): (b: seq<byte>)
    requires IsAscii(s)
    ensures |b| == |s|
    ensures forall i | 0 <= i < |s| :: b[i] == s[i] as int
  {
    if s == [] then [] else [s[0] as int] + Ascii(s[1..])
  }

  /** `w` occurs in `s` starting at index `i`. */
  predicate HasAt<T(==)>(s: seq<T>, i: int, w: seq<T>)
  {
    0 <= i && i + |w| <= |s| && s[i..i + |w|] == w
  }

  /** `w` occurs somewhere in `s`. */
  ghost predicate Contains<T>(s: seq<T>, w: seq<T>)
  {
    exists i :: HasAt(s, i, w)
  }

  /** Python's `s.find(w, start)`: the lowest index at or after `start` where
      `w` occurs, or -1 when there is none. */
  function FindFrom<T(==)>(s: seq<T>, w: seq<T>, start: nat): (r: int)
    requires start <= |s|
    decreases |s| - start
    ensures r == -1 <==> forall j | start <= j :: !HasAt(s, j, w)
    ensures r != -1 ==> start <= r && HasAt(s, r, w)
    ensures r != -1 ==> forall j | start <= j < r :: !HasAt(s, j, w)
  {
    if HasAt(s, start, w) then start
    else if start == |s| then -1
    else FindFrom(s, w, start + 1)
  }

  /** Python's `s.find(w)`. */
  function Find<T(==)>(s: seq<T>, w: seq<T>): (r: int)
    ensures r == -1 <==> !Contains(s, w)
    ensures r != -1 ==> HasAt(s, r, w) && forall j | 0 <= j < r :: !HasAt(s, j, w)
  {
    FindFrom(s, w, 0)
  }

  /** Python's `bytes.upper()`: only the ASCII letters a-z change. */
  function Upper(b: seq<byte>): (u: seq<byte>)
    ensures |u| == |b|
    ensures forall i | 0 <= i < |b| :: u[i] == if 97 <= b[i] <= 122 then b[i] - 32 else b[i]
  {
    if b == [] then []
    else [if 97 <= b[0] <= 122 then b[0] - 32 else b[0]] + Upper(b[1..])
  }
}

=== FILE: pdf_parser.dfy ===
/** The PDF recognizer and page counter of pjcounter/pdf.py.

    A sample is PDF when its first block holds the `%PDF-` file header
    (section 7.5.2 of ISO 32000-1), possibly behind a printer job language
    Universal Exit Language prefix `ESC%-12345X`. Pages are counted by
    scanning the decoded text for page-object dictionaries (section 7.7.3.3
    of ISO 32000-1) with a regular expression: `/Type`, any run of `\s`
    whitespace, `/Page`, then one of `/`, `>` or whitespace. It scans the
    way Python's `re.findall` does: leftmost match first, then resume the
    search where that match ended. */
module PdfParser {
  import opened Common

  // ---------------------------------------------------------------------
  // Recognition
  // ---------------------------------------------------------------------

  /** `%PDF-`, the PDF file header. */
  const PdfMagic: seq<byte> := Ascii("%PDF-")

  /** `ESC%-12345X`, the printer job language Universal Exit Language. */
  const UniversalExit: seq<byte> := [27] + Ascii("%-12345X")

  /** `LANGUAGE=PDF`, as it appears in a printer job language ENTER command. */
  const LanguagePdf: seq<byte> := Ascii("LANGUAGE=PDF")

  /** How far into the first block the Universal Exit Language is looked for. */
  const ExitWindow: nat := 128

  /** `Parser.isValid`: the four tests on the first block, in source order. */
  function IsValid(first: seq<byte>): bool
  {
    HasAt(first, 0, PdfMagic)
    || HasAt(first, 0, UniversalExit + PdfMagic)
    || (Find(first[..Min(ExitWindow, |first|)], UniversalExit) != -1
        && Find(Upper(first), LanguagePdf) != -1)
    || Find(first, PdfMagic) != -1
  }

  /** `isValid` holds exactly when `%PDF-` occurs anywhere in the first block,
      or the Universal Exit Language lies within its first 128 bytes and the
      upper-cased block names PDF as the job language: the two `startswith`
      tests add nothing to the general search. */
  lemma {:induction false} IsValidExactly(first: seq<byte>)
    ensures IsValid(first) <==>
              Contains(first, PdfMagic)
              || (Contains(first[..Min(ExitWindow, |first|)], UniversalExit)
                  && Contains(Upper(first), LanguagePdf))
  {
    if HasAt(first, 0, UniversalExit + PdfMagic) {
      assert first[9..14] == (UniversalExit + PdfMagic)[9..14];
      assert HasAt(first, 9, PdfMagic);
    }
  }

  /** A first block that begins with the PDF header, bare or behind the
      Universal Exit Language, is always recognised, whatever follows. */
  lemma HeaderIsValid(first: seq<byte>, rest: seq<byte>)
    requires first == PdfMagic + rest || first == UniversalExit + PdfMagic + rest
    ensures IsValid(first)
    ensures Contains(first, PdfMagic)
  {
    if first == PdfMagic + rest {
      assert first[..5] == PdfMagic;
      assert HasAt(first, 0, PdfMagic);
    } else {
      assert first[9..14] == PdfMagic;
      assert HasAt(first, 9, PdfMagic);
    }
  }

  // ---------------------------------------------------------------------
  // The page-marker pattern, declaratively
  // ---------------------------------------------------------------------

  /** Python's `\s` on `str`: the characters for which `str.isspace()` holds.
      NUL is not one of them. */
  predicate IsSpace(c: char)
  {
    var n := c as int;
    (9 <= n <= 13) || (28 <= n <= 32) || n == 0x85 || n == 0xA0 || n == 0x1680
    || (0x2000 <= n <= 0x200A) || n == 0x2028 || n == 0x2029 || n == 0x202F
    || n == 0x205F || n == 0x3000
  }

  /** The class `[/>\s]` that must follow `/Page`. */
  predicate IsPageTerminator(c: char)
  {
    c == '/' || c == '>' || IsSpace(c)
  }

  /** The shortest text the pattern can match: `/Type`, `/Page` and one
      terminator. */
  const MinMatchLength: nat := 11

  /** The pattern matches at `i` with `k` whitespace characters between
      `/Type` and `/Page`; the match then ends at `i + 11 + k`. */
  ghost predicate IsMatch(t: string, i: int, k: nat)
  {
    0 <= i && i + MinMatchLength + k <= |t|
    && t[i..i + 5] == "/Type"
    && (forall m | i + 5 <= m < i + 5 + k :: IsSpace(t[m]))
    && t[i + 5 + k..i + 10 + k] == "/Page"
    && IsPageTerminator(t[i + 10 + k])
  }

  /** Some match of the pattern starts at `i`. */
  ghost predicate MatchesAt(t: string, i: int)
  {
    exists k: nat :: IsMatch(t, i, k)
  }

  /** A stretch `[start, end)` of the text. */
  datatype Span = Span(start: nat, end: nat)

  /** The pattern matches exactly the text of `m`. */
  ghost predicate Matches(t: string, m: Span)
  {
    exists k: nat :: IsMatch(t, m.start, k) && m.end == m.start + MinMatchLength + k
  }

  /** `m` is the leftmost match at or after `from`. */
  ghost predicate Leftmost(t: string, from: nat, m: Span)
  {
    from <= m.start && Matches(t, m)
    && forall s | from <= s < m.start :: !MatchesAt(t, s)
  }

  /** No match starts at or after `from`. */
  ghost predicate NoMatchFrom(t: string, from: nat)
  {
    forall s | from <= s :: !MatchesAt(t, s)
  }

  /** `ms` is what `re.findall` reports when searching from `from`: the
      leftmost match at or after `from`, then the list found by searching
      again from where that match ended; nothing when no match is left. */
  ghost predicate FindAllFrom(t: string, from: nat, ms: seq<Span>)
    decreases |ms|
  {
    if ms == [] then NoMatchFrom(t, from)
    else Leftmost(t, from, ms[0]) && FindAllFrom(t, ms[0].end, ms[1..])
  }

  ghost predicate FindAll(t: string, ms: seq<Span>)
  {
    FindAllFrom(t, 0, ms)
  }

  // ---------------------------------------------------------------------
  // The scanner
  // ---------------------------------------------------------------------

  /** The end of the whitespace run that starts at `j`. */
  function SkipSpace(t: string, j: nat): (r: nat)
    requires j <= |t|
    decreases |t| - j
    ensures j <= r <= |t|
    ensures forall m | j <= m < r :: IsSpace(t[m])
    ensures r == |t| || !IsSpace(t[r])
  {
    if j < |t| && IsSpace(t[j]) then SkipSpace(t, j + 1) else j
  }

  /** Tries the pattern at `i`: `/Type`, the whitespace run, `/Page`, one
      terminator. Gives the end of the match, if there is one. */
  function MatchEnd(t: string, i: nat): (r: Option<nat>)
    ensures r.Some? ==> i + MinMatchLength <= r.value <= |t|
  {
    if HasAt(t, i, "/Type") then
      var j := SkipSpace(t, i + 5);
      if HasAt(t, j, "/Page") && j + 5 < |t| && IsPageTerminator(t[j + 5]) then Some(j + 6)
      else None
    else None
  }

  /** Scans left to right from `pos`, collecting every match and resuming
      after each. */
  function ScanFrom(t: string, pos: nat): seq<Span>
    requires pos <= |t|
    decreases |t| - pos
  {
    if pos == |t| then []
    else match MatchEnd(t, pos)
      case Some(e) => [Span(pos, e)] + ScanFrom(t, e)
      case None => ScanFrom(t, pos + 1)
  }

  /** The number of page markers in `t`. */
  function PageCount(t: string): nat
  {
    |ScanFrom(t, 0)|
  }

  /** `Parser.getJobSize` on already decoded text: `(pages, 1)` when a page
      marker exists, `(None, None)` otherwise. */
  function JobSize(t: string): (r: JobCount)
    ensures r.pages.Some? <==> r.copies.Some?
    ensures r.copies.Some? ==> r.copies.value == 1
    ensures r.pages.Some? ==> 1 <= r.pages.value && r.pages.value * MinMatchLength <= |t|
    ensures r.pages.Some? <==> exists i :: MatchesAt(t, i)
  {
    ScanFindsAll(t);
    FindAllBound(t, 0, ScanFrom(t, 0));
    var n := PageCount(t);
    if n == 0 then
      JobCount(None, None)
    else
      LeftmostIsMatch(t, 0, ScanFrom(t, 0)[0]);
      JobCount(Some(n), Some(1))
  }

  // ---------------------------------------------------------------------
  // The scanner agrees with the declarative pattern
  // ---------------------------------------------------------------------

  /** The whitespace run between `/Type` and `/Page` is forced: a match
      uses the whole run, so its end is determined by its start. */
  lemma MatchRunIsMaximal(t: string, i: nat, k: nat)
    requires IsMatch(t, i, k)
    ensures SkipSpace(t, i + 5) == i + 5 + k
  {
    assert t[i + 5 + k] == "/Page"[0];
    assert !IsSpace(t[i + 5 + k]);
  }

  /** When `MatchEnd` reports an end, the pattern matches that span. */
  lemma MatchEndSound(t: string, i: nat)
    requires MatchEnd(t, i).Some?
    ensures Matches(t, Span(i, MatchEnd(t, i).value))
  {
    var j := SkipSpace(t, i + 5);
    var k := j - (i + 5);
    assert t[i..i + 5] == "/Type";
    assert t[j..j + 5] == "/Page";
    assert IsMatch(t, i, k);
  }

  /** When the pattern matches at `i`, `MatchEnd` finds that match. */
  lemma MatchEndComplete(t: string, i: nat, k: nat)
    requires IsMatch(t, i, k)
    ensures MatchEnd(t, i) == Some(i + MinMatchLength + k)
  {
    MatchRunIsMaximal(t, i, k);
    assert HasAt(t, i, "/Type");
    assert HasAt(t, i + 5 + k, "/Page");
  }

  /** The leftmost match is a match. */
  lemma LeftmostIsMatch(t: string, from: nat, m: Span)
    requires Leftmost(t, from, m)
    ensures MatchesAt(t, m.start)
    ensures m.start + MinMatchLength <= m.end <= |t|
  {
  }

  /** A match starting at a given position has only one possible end. */
  lemma MatchEndUnique(t: string, m1: Span, m2: Span)
    requires Matches(t, m1) && Matches(t, m2) && m1.start == m2.start
    ensures m1 == m2
  {
    var k1: nat :| IsMatch(t, m1.start, k1) && m1.end == m1.start + MinMatchLength + k1;
    var k2: nat :| IsMatch(t, m2.start, k2) && m2.end == m2.start + MinMatchLength + k2;
    MatchEndComplete(t, m1.start, k1);
    MatchEndComplete(t, m2.start, k2);
  }

  /** Scanning from `pos`, when no match starts in `[from, pos)`, reports the
      findall list from `from`. */
  lemma {:induction false} ScanFromFindsAll(t: string, from: nat, pos: nat)
    requires from <= pos <= |t|
    requires forall s | from <= s < pos :: !MatchesAt(t, s)
    ensures FindAllFrom(t, from, ScanFrom(t, pos))
    decreases |t| - pos
  {
    if pos == |t| {
      forall s, k: nat | pos <= s
        ensures !IsMatch(t, s, k)
      {
      }
    } else {
      match MatchEnd(t, pos)
      case Some(e) =>
        MatchEndSound(t, pos);
        ScanFromFindsAll(t, e, e);
      case None =>
        if MatchesAt(t, pos) {
          var k: nat :| IsMatch(t, pos, k);
          MatchEndComplete(t, pos, k);
        }
        ScanFromFindsAll(t, from, pos + 1);
    }
  }

  /** The scanner reports exactly what `re.findall` reports. */
  lemma ScanFindsAll(t: string)
    ensures FindAll(t, ScanFrom(t, 0))
  {
    ScanFromFindsAll(t, 0, 0);
  }

  /** The findall list is unique: two lists that both satisfy the
      leftmost, non-overlapping description are the same list. */
  lemma {:induction false} FindAllUnique(t: string, from: nat, a: seq<Span>, b: seq<Span>)
    requires FindAllFrom(t, from, a) && FindAllFrom(t, from, b)
    ensures a == b
    decreases |a|
  {
    if a != [] && b != [] {
      assert a[0].start == b[0].start by {
        LeftmostIsMatch(t, from, a[0]);
        LeftmostIsMatch(t, from, b[0]);
      }
      MatchEndUnique(t, a[0], b[0]);
      FindAllUnique(t, a[0].end, a[1..], b[1..]);
      assert a == [a[0]] + a[1..] && b == [b[0]] + b[1..];
    } else if a != [] {
      LeftmostIsMatch(t, from, a[0]);
    } else if b != [] {
      LeftmostIsMatch(t, from, b[0]);
    }
  }

  /** Matches never overlap and each takes at least 11 characters, so a
      findall list from `from` has at most `(|t| - from) / 11` entries. */
  lemma {:induction false} FindAllBound(t: string, from: nat, ms: seq<Span>)
    requires FindAllFrom(t, from, ms)
    ensures ms != [] ==> from + |ms| * MinMatchLength <= ms[|ms| - 1].end <= |t|
    decreases |ms|
  {
    if ms != [] {
      var k: nat :| IsMatch(t, ms[0].start, k) && ms[0].end == ms[0].start + MinMatchLength + k;
      FindAllBound(t, ms[0].end, ms[1..]);
    }
  }

  /** The page count is the length of the findall list, whatever way that
      list is described. */
  lemma PageCountIsFindAll(t: string, ms: seq<Span>)
    requires FindAll(t, ms)
    ensures PageCount(t) == |ms|
    ensures JobSize(t) == if ms == [] then JobCount(None, None) else JobCount(Some(|ms|), Some(1))
  {
    ScanFindsAll(t);
    FindAllUnique(t, 0, ms, ScanFrom(t, 0));
  }

  /** A `/Type /Pages` page-tree node is never taken for a page: the
      character after `/Page` is `s`, which the pattern does not accept. */
  lemma PageTreeNodeNotCounted(t: string, i: nat, k: nat)
    requires i + 5 + k + 6 <= |t|
    requires t[i..i + 5] == "/Type"
    requires forall m | i + 5 <= m < i + 5 + k :: IsSpace(t[m])
    requires t[i + 5 + k..i + 5 + k + 6] == "/Pages"
    ensures !MatchesAt(t, i)
  {
    forall k': nat
      ensures !IsMatch(t, i, k')
    {
      assert t[i + 5 + k] == t[i + 5 + k..i + 5 + k + 6][0] == '/';
      assert t[i + 10 + k] == t[i + 5 + k..i + 5 + k + 6][5] == 's';
      if k' < k {
        assert IsSpace(t[i + 5 + k']);
        if i + 10 + k' <= |t| {
          assert t[i + 5 + k'..i + 10 + k'][0] == t[i + 5 + k'];
        }
      } else if k' > k {
        assert !IsSpace(t[i + 5 + k]);
      }
    }
  }

  /** From a position after which `/Type` never occurs, the scanner finds
      nothing. */
  lemma {:induction false} NoKeyNoMatches(t: string, p: nat)
    requires p <= |t|
    requires forall q | p <= q < |t| :: !HasAt(t, q, "/Type")
    ensures ScanFrom(t, p) == []
    decreases |t| - p
  {
    if p < |t| {
      NoKeyNoMatches(t, p + 1);
    }
  }

  /** In `/Type/Page/Type/Page>` the first match consumes the `/` that
      begins the second `/Type`, so only one page is counted. */
  lemma OverlappingMarkersCountOnce()
    ensures PageCount("/Type/Page/Type/Page>") == 1
    ensures JobSize("/Type/Page/Type/Page>") == JobCount(Some(1), Some(1))
  {
    var t := "/Type/Page/Type/Page>";
    assert t[0..5] == "/Type" && t[5..10] == "/Page" && t[10] == '/';
    assert SkipSpace(t, 5) == 5;
    assert MatchEnd(t, 0) == Some(11);
    forall q | 11 <= q < |t|
      ensures !HasAt(t, q, "/Type")
    {
      if q + 5 <= |t| {
        assert t[q] != '/' || t[q + 1] != 'T';
        assert t[q..q + 5][0] == t[q] && t[q..q + 5][1] == t[q + 1];
      }
    }
    NoKeyNoMatches(t, 11);
    assert ScanFrom(t, 0) == [Span(0, 11)] + ScanFrom(t, 11);
  }
}
